=== FILE: README.md ===
# Eurocontrol daily-traffic retrieval, modelled in Dafny

`retrieve_data` in `Automation.py` is meant to run every 24 hours
(`Automation.py:110`). It fetches the Eurocontrol "Daily Traffic
Variation – States" page. In the page's
`<script>` blocks it finds the link to the Excel workbook. It picks the
workbook's first sheet whose name contains "data" and saves that sheet as
`processed_data/processed_data.csv`. It reports the result as a one-entry
dictionary, either `{"message": ...}` or `{"error": ...}`.

This project models that run as pure functions and proves what it does.
The run's contact with the outside world becomes an input
(`Retrieval.Environment`):
- the HTTP response, or the exception raised instead;
- the sheet names of the workbook at a URL, or the exception raised instead;
- whether exporting a sheet raises;
- the output path.

What the run does in return is recorded as a trace of effects, in order:
log lines, the page request, the workbook open and the sheet export.

Modules, one per file:

- `Options`: the optional value the scans return.
- `Text`:
  - Python's `\s` class (the characters `str.isspace()` accepts);
  - `pat in s` (`Contains`), with a declarative reading;
  - a character-by-character literal comparison;
  - `str.lower()` on ASCII letters.
- `Decimal`: `str(int)` as the f-string prints the status code, and a
  parser that reads it back.
- `FirstMatch`: the two "first one that qualifies" idioms in the code.
  - The `for … break` loop over a sequence is `FirstSome`.
  - `re.search`'s scan over start positions is `FirstSomeFrom`.
  - `next((x for x in xs if p(x)), None)` is `First`.
- `LinkDiscovery`: the pattern `link\.href\s*=\s*"([^"]+)"`.
  - The pattern is stated twice: declaratively (`MatchShape`, `MatchesAt`,
    `LeftmostMatch`) and as a deterministic scanner (`MatchAt`, `Search`).
    The two are proved equal.
  - It also covers the loop over script bodies that picks the download URL
    (`FindDownloadUrl`).
- `SheetSelection`: `'data' in sheet.lower()` and the choice of the first
  sheet that passes it.
- `Retrieval`: the run itself (`Retrieve`, split into the stages
  `AfterFetch`, `AfterLink` and `AfterSheet`), its error texts, and the
  returned dictionary.

The regular expression needs no backtracking. Each repetition in it (`\s*`,
`[^"]+`) is followed by a character that the repetition cannot match (`=`
or `"`). So at any start index the match is unique and the greedy scanner
finds it. `MatchAtCorrect` and `MatchIsUnique` state this.

The loop over the scripts leaves only when the regular expression matches
(`Automation.py:51-53`). A script that has the `ButtonDownload` marker but
no match is passed over, and later scripts are still searched.
`NoUrlScriptIsSkipped` and `FindDownloadUrlCorrect` state this.

## Model

| member | source | states |
|---|---|---|
| Text.Contains | Automation.py:49 | `pat in s` holds exactly when `pat` occurs in `s` at some index |
| Text.LiteralFromCorrect | Automation.py:50 | the character-by-character comparison of a literal accepts exactly when every character from the given offset on agrees |
| Text.LiteralAtCorrect | Automation.py:50 | matching the literal `link.href` at an index inside the text is the same as the literal occurring there |
| Text.Lower | Automation.py:64 | ASCII lower-casing of `sheet`: it keeps the length and lower-cases each ASCII letter, leaving every other character as it is |
| Text.LowerChar | Automation.py:64 | ASCII lower-casing of one character: an upper-case ASCII letter becomes its lower-case form; any other character is unchanged |
| Decimal.NatToDecimal | Automation.py:38 | the decimal text of a natural number is non-empty, all digits, and has no leading zero |
| Decimal.IntToDecimal | Automation.py:38 | the status code prints as its decimal text, with a leading `-` exactly for negative codes |
| Decimal.NatDecimalRoundTrip | Automation.py:38 | reading back the printed digits gives the number |
| Decimal.IntDecimalRoundTrip | Automation.py:38 | reading back the printed status code gives the code |
| Decimal.IntToDecimalInjective | Automation.py:38 | different status codes print differently |
| FirstMatch.FirstSomeCorrect | Automation.py:48-53 | the loop with `break` yields nothing exactly when no element yields anything, and otherwise the value of the first element that yields one |
| FirstMatch.FirstSomeSkips | Automation.py:48-53 | an element that yields nothing can be removed without changing what the loop finds |
| FirstMatch.FirstSomeFromCorrect | Automation.py:50 | scanning start positions gives nothing exactly when no position gives a match, and otherwise the match at the first position that has one |
| FirstMatch.FirstSomeFromAgrees | Automation.py:50 | when each position is described by a relation, the scan returns the value at the least related position, and nothing exactly when no position is related |
| FirstMatch.FirstCorrect | Automation.py:64 | `next(..., None)` gives `None` exactly when no element qualifies, and otherwise the qualifying element at the least index |
| LinkDiscovery.SkipSpace | Automation.py:50 | `\s*` consumes the whole whitespace run from its start and stops at the end of the text or at a character that is not whitespace |
| LinkDiscovery.NextQuote | Automation.py:50 | the scan for the closing quote stops at the first `"` from its start, or at the end of the text |
| LinkDiscovery.SkipSpaceStops | Automation.py:50 | a whitespace run that ends at a non-whitespace character is exactly where `\s*` stops |
| LinkDiscovery.NextQuoteStops | Automation.py:50 | a quote-free run followed by `"` is exactly where the capture `[^"]+` stops |
| LinkDiscovery.TargetFound | Automation.py:50 | `link.href` spelled out at an index is accepted by the literal comparison there |
| LinkDiscovery.MatchAtSound | Automation.py:50 | whatever the scanner captures at an index is a match of the pattern there |
| LinkDiscovery.MatchAtComplete | Automation.py:50 | every match of the pattern at an index is what the scanner captures there |
| LinkDiscovery.MatchAtCorrect | Automation.py:50 | at each index the scanner captures `url` exactly when the pattern matches there with capture `url` |
| LinkDiscovery.MatchIsUnique | Automation.py:50 | at one start index the pattern has at most one capture |
| LinkDiscovery.MatchesFromAgrees | Automation.py:50 | the per-index scan that `re.search` runs agrees with the pattern at every index of the text |
| LinkDiscovery.NoMatchBefore | Automation.py:50 | positions where the scanner captures nothing are positions where the pattern matches nothing |
| LinkDiscovery.SearchIsLeftmost | Automation.py:50-52 | what `re.search(...).group(1)` returns is the capture of the leftmost match |
| LinkDiscovery.LeftmostIsSearch | Automation.py:50-52 | the capture of the leftmost match is what `re.search(...).group(1)` returns |
| LinkDiscovery.SearchNoneCorrect | Automation.py:50-51 | `re.search` finds nothing exactly when the pattern matches at no index |
| LinkDiscovery.SearchCorrect | Automation.py:50-52 | `re.search` returns `url` exactly when `url` is the capture of the leftmost match, and nothing exactly when there is no match |
| LinkDiscovery.QuotedText | Automation.py:50 | the opening quote, the capture and the closing quote are the text `"<url>"` from the opening quote |
| LinkDiscovery.EqualsText | Automation.py:50 | from the `=` on, the text reads `=`, the whitespace run, then `"<url>"` |
| LinkDiscovery.AssignmentText | Automation.py:50 | a match reads `link.href<w1>=<w2>"<url>"` from its start index, with `w1` and `w2` the runs found |
| LinkDiscovery.SpaceRun | Automation.py:50 | a run of whitespace positions, cut out of the text, is all whitespace |
| LinkDiscovery.MatchIsAssignment | Automation.py:50 | a match is an occurrence of `link.href<w1>=<w2>"<url>"` for some whitespace runs `w1` and `w2` |
| LinkDiscovery.AssignmentIsMatch | Automation.py:50 | an occurrence of `link.href<w1>=<w2>"<url>"` with whitespace runs `w1`, `w2` and a non-empty quote-free `url` is a match capturing `url` |
| LinkDiscovery.ScriptUrl | Automation.py:49-51 | a script contributes a link only when its body is present and contains `ButtonDownload`, and then the link is the search result on that body |
| LinkDiscovery.ScriptUrlCorrect | Automation.py:49-52 | a script yields `url` exactly when it is present, has the marker, and `url` is the leftmost capture; it yields nothing exactly when it is absent, unmarked, or has no match |
| LinkDiscovery.FindDownloadUrlCorrect | Automation.py:46-53 | the URL found is the one yielded by the earliest script that yields one, and every earlier script yields nothing; no URL is found exactly when no script yields one |
| LinkDiscovery.NoUrlScriptIsSkipped | Automation.py:48-53 | an absent, unmarked or match-less script is passed over: removing it does not change the URL found |
| LinkDiscovery.FoundUrlIsUrl | Automation.py:50-55 | the URL found is non-empty and has no double quote, so `if not download_url` fires only when nothing was found |
| SheetSelection.LoweredAt | Automation.py:64 | lower-casing produces "data" at an index exactly when the name spells "data" there in any mix of cases |
| SheetSelection.IsDataSheetCorrect | Automation.py:64 | a sheet qualifies exactly when its name spells "data" somewhere, ignoring case |
| SheetSelection.DataSheetIsLong | Automation.py:64-65 | a qualifying name has at least four characters, so `if not data_sheet` fires only when no sheet qualifies |
| SheetSelection.SelectSheetCorrect | Automation.py:64 | the chosen sheet is the first qualifying name in workbook order, and there is none exactly when no name qualifies |
| SheetSelection.SelectedSheetQualifies | Automation.py:64-65 | the chosen sheet is one of the workbook's names, qualifies, and is non-empty |
| Retrieval.FaultText | Automation.py:83-92 | the error text of a caught exception contains the exception's own text; it starts with the network-error prefix exactly for request errors and with the unexpected-error prefix exactly for all other exceptions |
| Retrieval.Retrieve | Automation.py:30-92 | every run in which each outside call returns or raises an `Exception` logs its start, then requests the page, and ends by logging its outcome: at error level for an error, at info level for success |
| Retrieval.AfterFetch | Automation.py:37-58 | after the page arrives, every path extends the trace so far and ends by logging its outcome |
| Retrieval.AfterLink | Automation.py:61-68 | after the link is found, every path extends the trace so far and ends by logging its outcome |
| Retrieval.AfterSheet | Automation.py:71-81 | after the sheet is chosen, every path extends the trace so far and ends by logging its outcome |
| Retrieval.ToDict | Automation.py:40-92 | the returned dictionary has exactly one key, `message` for success or `error` for failure, whose value is the outcome text |
| Retrieval.DictRoundTrip | Automation.py:81-92 | the outcome can be read back from the returned dictionary |
| Retrieval.BadStatusStops | Automation.py:37-40 | a status other than 200 ends the run with an error containing the code, after only the start log and the page request |
| Retrieval.StatusCodeReadBack | Automation.py:38 | the error text for a bad status is the fixed prefix followed by text that reads back as the status code |
| Retrieval.NoLinkStops | Automation.py:46-58 | when no script yields a link, the run ends with the no-link error and opens and saves nothing |
| Retrieval.OpensFoundLink | Automation.py:55-61 | a workbook is opened at `url` exactly when the page loaded with status 200 and discovery found `url` |
| Retrieval.NoSheetStops | Automation.py:64-68 | a workbook with no qualifying sheet ends the run with the no-sheet error and nothing is saved |
| Retrieval.SavesOnlyDataSheet | Automation.py:64-77 | any sheet saved is the chosen data sheet of the workbook at the discovered link, and it goes to the output file |
| Retrieval.FaultIsReported | Automation.py:83-92 | an exception from the page request, the workbook open or the export ends the run with the text of the handler that catches it |
| Retrieval.SuccessCorrect | Automation.py:61-81 | the run succeeds exactly when every stage goes through, and then it reports the output file after saving the chosen sheet there |

## Left out

- Network access is not modelled. The HTTP request (`requests.get`) and
  the download inside `pd.ExcelFile` are inputs: their results, or the
  exceptions they raise.
- HTML parsing is not modelled. BeautifulSoup's `find_all('script')` and
  `.string` are given as the ordered list of script bodies. A body is
  absent where `.string` is `None`.
- Reading Excel files and writing CSV files are not modelled
  (`pd.read_excel`, `os.makedirs`, `df.to_csv`). Their combined effect is
  one `SaveSheet` effect and an optional fault.
- The output path is an input. How `os.path.join` builds it from the
  script's directory is a filesystem detail.
- Log timestamps and the `logging` configuration are not modelled. Only
  the level and text of each log line appear in the trace.
- `print` output to the console is not modelled.
- Text.Lower: is ASCII lower-casing, not Python's full `str.lower()`.
  Python also lowers non-ASCII letters (`'É'` becomes `'é'`), and it turns
  U+0130 into two characters, so the length can change. The model keeps
  every non-ASCII character and always keeps the length.
- Text.LowerChar: leaves every non-ASCII character unchanged, where Python
  lowers non-ASCII upper-case letters.
- SheetSelection.IsDataSheet: relies on ASCII lower-casing only. No
  character outside ASCII lower-cases to `d`, `a` or `t`, so whether a name
  contains "data" comes out the same as with full Unicode lower-casing.
- Workbook and export fault kinds: `pd.ExcelFile` downloads the URL with
  `urllib`, not `requests`, so a failed workbook download always reaches
  the generic handler and reads "An unexpected error occurred: …". The
  export (`pd.read_excel`, `os.makedirs`, `df.to_csv` on a local path)
  never raises `requests.exceptions.RequestException` either, so its
  faults also reach the generic handler. The model lets both the workbook
  input (`Environment.open`) and the export input (`Environment.save`)
  raise either kind of fault. Every lemma holds for both kinds, so this
  over-approximates the source.
- Exceptions in the other library calls are not modelled. These are the
  HTML parser, `re`, the logging calls and the `print` calls (lines 31,
  80, 86 and 91). The model treats them as never raising. A raise at line
  80 would follow the info-level "Data saved" log line with an
  unexpected-error result, and one at line 86 or 91 would leave the
  handler with no dictionary; the model has no such traces.
- Calls that never return and exceptions outside `Exception` are not
  modelled. `requests.get` has no timeout (line 35), and neither has the
  download inside `pd.ExcelFile` (line 61), so a stalled server blocks the
  run forever. `KeyboardInterrupt` (the Ctrl+C that line 112 invites) and
  `SystemExit` derive from `BaseException`, so they pass both handlers
  (lines 83 and 88) and leave `retrieve_data` with no log line and no
  dictionary.
- Retrieval.Retrieve: its "ends by logging its outcome" holds only for
  runs where every outside call returns or raises an `Exception`, for the
  reasons in the line above.
- The scheduler (`schedule_lambda`, `schedule.every(24).hour`), the
  `MockContext` class and the module-level set-up are not modelled. They
  are not part of a retrieval run. As written, `every(24).hour` uses the
  singular `hour`, which the `schedule` library accepts only for an
  interval of 1, so `schedule_lambda` raises before the job is registered.
  Its docstring's "every 1 minute" does not match line 110 either.

=== FILE: decimal.dfy ===
/** Python's `str()` on an `int`, as used when the status code is formatted
    into the fetch-failure message, together with the parser that undoes it. */
module Decimal {

  predicate IsDigit(c: char) {
    '0' <= c <= '9'
  }

  ghost predicate AllDigits(s: string) {
    forall i :: 0 <= i < |s| ==> IsDigit(s[i])
  }

  function DigitChar(d: nat): (c: char)
    requires d < 10
    ensures IsDigit(c) && c as int - '0' as int == d
  {
    (d + '0' as int) as char
  }

  function DigitValue(c: char): (d: nat)
    requires IsDigit(c)
    ensures d < 10 && DigitChar(d) == c
  {
    c as int - '0' as int
  }

  /** The base-ten digits of `n`, most significant first, with no leading zero. */
  function NatToDecimal(n: nat): (s: string)
    ensures |s| > 0 && AllDigits(s)
    ensures s[0] == '0' ==> n == 0 && |s| == 1
    decreases n
  {
    if n < 10 then [DigitChar(n)] else NatToDecimal(n / 10) + [DigitChar(n % 10)]
  }

  /** The value of a string of base-ten digits, most significant first. */
  function DecimalToNat(s: string): nat
    requires AllDigits(s)
  {
    if |s| == 0 then 0 else 10 * DecimalToNat(s[..|s| - 1]) + DigitValue(s[|s| - 1])
  }

  lemma {:induction false} NatDecimalRoundTrip(n: nat)
    ensures DecimalToNat(NatToDecimal(n)) == n
    decreases n
  {
    if n >= 10 {
      var s := NatToDecimal(n);
      assert s[..|s| - 1] == NatToDecimal(n / 10);
      NatDecimalRoundTrip(n / 10);
    }
  }

  /** Python's `str(i)`: a minus sign before the digits of a negative number. */
  function IntToDecimal(i: int): (s: string)
    ensures |s| > 0
    ensures s[0] == '-' <==> i < 0
    ensures i < 0 ==> |s| > 1 && AllDigits(s[1..])
    ensures i >= 0 ==> AllDigits(s)
  {
    if i < 0 then "-" + NatToDecimal(-i) else NatToDecimal(i)
  }

  /** Python's `int(s)` on the strings `IntToDecimal` produces. */
  function DecimalToInt(s: string): int
    requires |s| > 0
    requires s[0] == '-' ==> AllDigits(s[1..])
    requires s[0] != '-' ==> AllDigits(s)
  {
    if s[0] == '-' then -(DecimalToNat(s[1..]) as int) else DecimalToNat(s)
  }

  /** Formatting a status code loses nothing: the number can be read back. */
  lemma IntDecimalRoundTrip(i: int)
    ensures DecimalToInt(IntToDecimal(i)) == i
  {
    var s := IntToDecimal(i);
    if i < 0 {
      assert s[1..] == NatToDecimal(-i);
      NatDecimalRoundTrip(-i);
    } else {
      NatDecimalRoundTrip(i);
    }
  }

  /** Distinct status codes are formatted differently. */
  lemma IntToDecimalInjective(i: int, j: int)
    requires IntToDecimal(i) == IntToDecimal(j)
    ensures i == j
  {
    IntDecimalRoundTrip(i);
    IntDecimalRoundTrip(j);
  }
}

=== FILE: first_match.dfy ===
/** Python's "first element that qualifies" idioms: a `for` loop that
    `break`s on the first hit, and `next((x for x in xs if p(x)), None)`. */
module FirstMatch {
  import opened Options

  /** The value `f` gives for the first element of `xs` on which it gives one. */
  function FirstSome<T, U>(xs: seq<T>, f: T -> Option<U>): Option<U> {
    if |xs| == 0 then None
    else
      match f(xs[0])
      case Some(u) => Some(u)
      case None => FirstSome(xs[1..], f)
  }

  /** `FirstSome` gives nothing exactly when `f` gives nothing on every
      element, and otherwise what `f` gives on the first element where it
      gives something. */
  lemma {:induction false} FirstSomeCorrect<T, U>(xs: seq<T>, f: T -> Option<U>)
    ensures FirstSome(xs, f).None? <==> forall k :: 0 <= k < |xs| ==> f(xs[k]).None?
    ensures FirstSome(xs, f).Some? ==>
      exists k :: 0 <= k < |xs| && f(xs[k]) == FirstSome(xs, f) &&
        forall j :: 0 <= j < k ==> f(xs[j]).None?
  {
    if |xs| > 0 && f(xs[0]).None? {
      FirstSomeCorrect(xs[1..], f);
      assert forall k :: 1 <= k < |xs| ==> xs[1..][k - 1] == xs[k];
      if FirstSome(xs, f).Some? {
        var k :| 0 <= k < |xs[1..]| && f(xs[1..][k]) == FirstSome(xs, f) &&
          forall j :: 0 <= j < k ==> f(xs[1..][j]).None?;
        assert f(xs[k + 1]) == FirstSome(xs, f);
      }
    }
  }

  /** An element on which `f` gives nothing can be dropped without changing
      the outcome: the scan simply moves past it. */
  lemma {:induction false} FirstSomeSkips<T, U>(xs: seq<T>, f: T -> Option<U>, k: nat)
    requires k < |xs| && f(xs[k]).None?
    ensures FirstSome(xs[..k] + xs[k + 1..], f) == FirstSome(xs, f)
  {
    if k == 0 {
      assert xs[..0] + xs[1..] == xs[1..];
    } else {
      var rest := xs[1..];
      FirstSomeSkips(rest, f, k - 1);
      var dropped := xs[..k] + xs[k + 1..];
      assert dropped[0] == xs[0];
      assert dropped[1..] == rest[..k - 1] + rest[k..];
    }
  }

  /** The value `f` gives for the first position from `i` up to and
      including `n` on which it gives one. */
  function FirstSomeFrom<U>(f: nat --> Option<U>, i: nat, n: nat): Option<U>
    requires i <= n
    requires forall k :: i <= k <= n ==> f.requires(k)
    decreases n - i
  {
    match f(i)
    case Some(u) => Some(u)
    case None => if i == n then None else FirstSomeFrom(f, i + 1, n)
  }

  /** `FirstSomeFrom` gives nothing exactly when `f` gives nothing at every
      position from `i` to `n`, and otherwise what `f` gives at the first
      position where it gives something. */
  lemma {:induction false} FirstSomeFromCorrect<U>(f: nat --> Option<U>, i: nat, n: nat)
    requires i <= n
    requires forall k :: i <= k <= n ==> f.requires(k)
    ensures FirstSomeFrom(f, i, n).None? <==> forall k :: i <= k <= n ==> f(k).None?
    ensures FirstSomeFrom(f, i, n).Some? ==>
      exists k :: i <= k <= n && f(k) == FirstSomeFrom(f, i, n) &&
        forall k' :: i <= k' < k ==> f(k').None?
    decreases n - i
  {
    if f(i).None? && i < n {
      FirstSomeFromCorrect(f, i + 1, n);
    }
  }

  /** When `f` is characterised by a relation `spec` (`f(k) == Some(v)`
      exactly when `spec(k, v)`), `FirstSomeFrom` gives the value related to
      the least position that has one, and nothing when no position has one. */
  lemma FirstSomeFromAgrees<U(!new)>(f: nat --> Option<U>, i: nat, n: nat, spec: (nat, U) -> bool, u: U)
    requires i <= n
    requires forall k :: i <= k <= n ==> f.requires(k)
    requires forall k, v :: i <= k <= n ==> (f(k) == Some(v) <==> spec(k, v))
    ensures FirstSomeFrom(f, i, n) == Some(u) <==>
      exists k :: i <= k <= n && spec(k, u) && forall k', v :: i <= k' < k ==> !spec(k', v)
    ensures FirstSomeFrom(f, i, n).None? <==> forall k, v :: i <= k <= n ==> !spec(k, v)
  {
    FirstSomeFromCorrect(f, i, n);
    var r := FirstSomeFrom(f, i, n);
    if r.Some? {
      var k :| i <= k <= n && f(k) == r && forall k' :: i <= k' < k ==> f(k').None?;
      assert spec(k, r.value);
      if k0 :| i <= k0 <= n && spec(k0, u) && forall k', v :: i <= k' < k0 ==> !spec(k', v) {
        assert f(k0) == Some(u);
        assert !(k0 < k) && !(k < k0);
      }
    }
  }

  /** The first element of `xs` satisfying `p`. */
  function First<T>(xs: seq<T>, p: T -> bool): Option<T> {
    if |xs| == 0 then None
    else if p(xs[0]) then Some(xs[0])
    else First(xs[1..], p)
  }

  /** `First` gives nothing exactly when no element satisfies `p`, and
      otherwise the element at the least index that does. */
  lemma {:induction false} FirstCorrect<T>(xs: seq<T>, p: T -> bool)
    ensures First(xs, p).None? <==> forall k :: 0 <= k < |xs| ==> !p(xs[k])
    ensures First(xs, p).Some? ==>
      exists k :: 0 <= k < |xs| && xs[k] == First(xs, p).value && p(xs[k]) &&
        forall j :: 0 <= j < k ==> !p(xs[j])
  {
    if |xs| > 0 && !p(xs[0]) {
      FirstCorrect(xs[1..], p);
      assert forall k :: 1 <= k < |xs| ==> xs[1..][k - 1] == xs[k];
      if First(xs, p).Some? {
        var k :| 0 <= k < |xs[1..]| && xs[1..][k] == First(xs, p).value && p(xs[1..][k]) &&
          forall j :: 0 <= j < k ==> !p(xs[1..][j]);
        assert xs[k + 1] == First(xs, p).value;
      }
    }
  }
}

=== FILE: link_discovery.dfy ===
/** Discovery of the spreadsheet link in the page's script bodies
    (`retrieve_data`, the `for script in script_tags` loop).

    The regular expression `link\.href\s*=\s*"([^"]+)"` is modelled by a
    hand-written scanner. Each repetition in it is followed by a character the
    repeated class cannot match (`=` after `\s*`, `"` after `[^"]+`), so at a
    given start index the regex engine has exactly one way to match, and the
    scanner below finds it without backtracking. */
module LinkDiscovery {
  import opened Options
  import opened Text
  import opened FirstMatch

  /** The token that marks the script initialising the download button. */
  const Marker: string := "ButtonDownload"

  /** The literal head of the pattern, `link\.href`. */
  const Target: string := "link.href"

  const Quote: char := '"'

  // ---------------------------------------------------------------------
  // The pattern, stated declaratively

  /** What `([^"]+)` can capture: a non-empty run without a double quote. */
  predicate IsUrl(u: string) {
    |u| > 0 && forall t :: 0 <= t < |u| ==> u[t] != Quote
  }

  /** The pattern, read left to right, matches `s` from index `i` with its
      `=` at index `k`, its opening quote at index `m`, and capture `url`:
      `link.href`, whitespace up to `k`, `=`, whitespace up to `m`, `"`,
      `url`, `"`. */
  ghost predicate MatchShape(s: string, i: nat, k: nat, m: nat, url: string) {
    && i + |Target| <= k < m
    && m + 1 + |url| < |s|
    && (forall t {:trigger Target[t]} :: 0 <= t < |Target| ==> s[i + t] == Target[t])
    && (forall t :: i + |Target| <= t < k ==> SpaceAt(s, t))
    && s[k] == '='
    && (forall t :: k < t < m ==> SpaceAt(s, t))
    && s[m] == Quote
    && IsUrl(url)
    && (forall t {:trigger url[t]} :: 0 <= t < |url| ==> s[m + 1 + t] == url[t])
    && s[m + 1 + |url|] == Quote
  }

  /** The pattern matches `s` starting at index `i`, capturing `url`. */
  ghost predicate MatchesAt(s: string, i: nat, url: string) {
    exists k: nat, m: nat :: MatchShape(s, i, k, m, url)
  }

  /** The pattern matches `s` at `i`, and at no earlier index: what
      `re.search` reports. */
  ghost predicate LeftmostMatch(s: string, i: nat, url: string) {
    && MatchesAt(s, i, url)
    && forall i': nat, u': string :: i' < i ==> !MatchesAt(s, i', u')
  }

  ghost predicate AllSpace(w: string) {
    forall t :: 0 <= t < |w| ==> IsSpace(w[t])
  }

  /** The text `link.href<w1>=<w2>"<url>"`. */
  function Assignment(w1: string, w2: string, url: string): string {
    Target + (w1 + ("=" + (w2 + ([Quote] + (url + [Quote])))))
  }

  // ---------------------------------------------------------------------
  // The scanner

  /** The end of the run of whitespace starting at `j` (the greedy `\s*`). */
  function SkipSpace(s: string, j: nat): (k: nat)
    requires j <= |s|
    ensures j <= k <= |s|
    ensures forall t :: j <= t < k ==> SpaceAt(s, t)
    ensures k == |s| || !IsSpace(s[k])
    decreases |s| - j
  {
    if j < |s| && IsSpace(s[j]) then SkipSpace(s, j + 1) else j
  }

  /** The index of the first double quote at or after `j`, or `|s|` (the
      greedy `[^"]+`). */
  function NextQuote(s: string, j: nat): (q: nat)
    requires j <= |s|
    ensures j <= q <= |s|
    ensures forall t :: j <= t < q ==> s[t] != Quote
    ensures q == |s| || s[q] == Quote
    decreases |s| - j
  {
    if j < |s| && s[j] != Quote then NextQuote(s, j + 1) else j
  }

  /** The capture of a match starting exactly at index `i`, if there is one. */
  function MatchAt(s: string, i: nat): Option<string>
    requires i <= |s|
  {
    if !LiteralAt(s, i, Target) then None
    else
      var k := SkipSpace(s, i + |Target|);
      if k == |s| || s[k] != '=' then None
      else
        var m := SkipSpace(s, k + 1);
        if m == |s| || s[m] != Quote then None
        else
          var q := NextQuote(s, m + 1);
          if q == |s| || q == m + 1 then None
          else Some(s[m + 1..q])
  }

  /** `re.search(pattern, s)` followed by `match.group(1)`: the capture of
      the match at the first start index where there is one. */
  function Search(s: string): Option<string> {
    FirstSomeFrom(MatchesFrom(s), 0, |s|)
  }

  /** `MatchAt` on `s`, as a function of the start index. */
  function MatchesFrom(s: string): (f: nat --> Option<string>)
    ensures forall k: nat :: k <= |s| ==> f.requires(k)
  {
    (k: nat) requires k <= |s| => MatchAt(s, k)
  }

  // ---------------------------------------------------------------------
  // The scanner agrees with the pattern

  /** If the scanner captures at `i`, the pattern matches there, with `=` and
      the opening quote where the scanner found them. */
  lemma MatchAtSound(s: string, i: nat)
    requires i <= |s| && MatchAt(s, i).Some?
    ensures MatchesAt(s, i, MatchAt(s, i).value)
  {
    var k := SkipSpace(s, i + |Target|);
    var m := SkipSpace(s, k + 1);
    var q := NextQuote(s, m + 1);
    var url := s[m + 1..q];
    LiteralFromCorrect(s, i, Target, 0);
    assert MatchShape(s, i, k, m, url);
  }

  /** A whitespace run ending at a non-whitespace character is where
      `SkipSpace` stops. */
  lemma {:induction false} SkipSpaceStops(s: string, j: nat, k: nat)
    requires j <= k < |s| && !IsSpace(s[k])
    requires forall t :: j <= t < k ==> SpaceAt(s, t)
    ensures SkipSpace(s, j) == k
    decreases k - j
  {
    if j < k {
      assert SpaceAt(s, j);
      SkipSpaceStops(s, j + 1, k);
    }
  }

  /** A quote-free run `url` followed by a quote is where `NextQuote` stops. */
  lemma NextQuoteStops(s: string, j: nat, url: string)
    requires j + |url| < |s| && s[j + |url|] == Quote
    requires IsUrl(url) && forall t :: 0 <= t < |url| ==> s[j + t] == url[t]
    ensures NextQuote(s, j) == j + |url|
  {
    forall t | j <= t < j + |url|
      ensures s[t] != Quote
    {
      assert s[t] == s[j + (t - j)] == url[t - j];
    }
  }

  /** `link.href` spelled out from index `i` is what the literal
      comparison accepts. */
  lemma TargetFound(s: string, i: nat)
    requires i + |Target| <= |s|
    requires forall t {:trigger Target[t]} :: 0 <= t < |Target| ==> s[i + t] == Target[t]
    ensures LiteralAt(s, i, Target)
  {
    forall u: nat | u < |Target|
      ensures Agrees(s, i, Target, u)
    {
    }
    LiteralFromCorrect(s, i, Target, 0);
  }

  /** If the pattern matches at `i` capturing `url`, the scanner finds it:
      at one start index the match is unique. */
  lemma MatchAtComplete(s: string, i: nat, url: string)
    requires MatchesAt(s, i, url)
    ensures MatchAt(s, i) == Some(url)
  {
    var k: nat, m: nat :| MatchShape(s, i, k, m, url);
    TargetFound(s, i);
    SliceIs(s, m + 1, url);
    SkipSpaceStops(s, i + |Target|, k);
    SkipSpaceStops(s, k + 1, m);
    NextQuoteStops(s, m + 1, url);
  }

  /** The scanner at one index is exactly the pattern at that index. */
  lemma MatchAtCorrect(s: string, i: nat, url: string)
    requires i <= |s|
    ensures MatchAt(s, i) == Some(url) <==> MatchesAt(s, i, url)
  {
    if MatchAt(s, i) == Some(url) {
      MatchAtSound(s, i);
    }
    if MatchesAt(s, i, url) {
      MatchAtComplete(s, i, url);
    }
  }

  /** At one start index the pattern captures at most one string. */
  lemma MatchIsUnique(s: string, i: nat, u1: string, u2: string)
    requires MatchesAt(s, i, u1) && MatchesAt(s, i, u2)
    ensures u1 == u2
  {
    MatchAtComplete(s, i, u1);
    MatchAtComplete(s, i, u2);
  }

  /** The per-index scan `Search` runs is characterised by the pattern. */
  lemma MatchesFromAgrees(s: string)
    ensures forall k: nat, v: string :: k <= |s| ==>
      (MatchesFrom(s)(k) == Some(v) <==> MatchesAt(s, k, v))
  {
    forall k: nat, v: string | k <= |s|
      ensures MatchesFrom(s)(k) == Some(v) <==> MatchesAt(s, k, v)
    {
      MatchAtCorrect(s, k, v);
    }
  }

  /** What `Search` returns is the capture of the leftmost match. */
  lemma SearchIsLeftmost(s: string, url: string)
    requires Search(s) == Some(url)
    ensures exists i: nat :: LeftmostMatch(s, i, url)
  {
    var f := MatchesFrom(s);
    FirstSomeFromCorrect(f, 0, |s|);
    var k: nat :| k <= |s| && f(k) == Some(url) && forall k' :: 0 <= k' < k ==> f(k').None?;
    NoMatchBefore(s, k);
    MatchAtCorrect(s, k, url);
    assert LeftmostMatch(s, k, url);
  }

  /** Where the scanner captures nothing, the pattern matches nothing. */
  lemma NoMatchBefore(s: string, k: nat)
    requires k <= |s|
    requires forall k' :: 0 <= k' < k ==> MatchesFrom(s)(k').None?
    ensures forall i': nat, u': string :: i' < k ==> !MatchesAt(s, i', u')
  {
    forall i': nat, u': string | i' < k
      ensures !MatchesAt(s, i', u')
    {
      assert MatchesFrom(s)(i').None?;
      MatchAtCorrect(s, i', u');
    }
  }

  /** The capture of the leftmost match is what `Search` returns. */
  lemma LeftmostIsSearch(s: string, i: nat, url: string)
    requires LeftmostMatch(s, i, url)
    ensures Search(s) == Some(url)
  {
    var spec := (k: nat, v: string) => MatchesAt(s, k, v);
    MatchesFromAgrees(s);
    FirstSomeFromAgrees(MatchesFrom(s), 0, |s|, spec, url);
    assert i <= |s|;
    assert spec(i, url) && forall k', v :: 0 <= k' < i ==> !spec(k', v);
  }

  /** `Search` finds nothing exactly when the pattern matches nowhere. */
  lemma SearchNoneCorrect(s: string)
    ensures Search(s).None? <==> forall i: nat, u: string :: !MatchesAt(s, i, u)
  {
    var spec := (k: nat, v: string) => MatchesAt(s, k, v);
    MatchesFromAgrees(s);
    FirstSomeFromAgrees(MatchesFrom(s), 0, |s|, spec, "");
    if Search(s).None? {
      forall i: nat, u: string
        ensures !MatchesAt(s, i, u)
      {
        if i <= |s| {
          assert !spec(i, u);
        }
      }
    }
  }

  /** `Search` is `re.search`: it returns the capture of the leftmost match,
      and nothing exactly when the pattern matches nowhere. */
  lemma SearchCorrect(s: string, url: string)
    ensures Search(s) == Some(url) <==> exists i: nat :: LeftmostMatch(s, i, url)
    ensures Search(s).None? <==> forall i: nat, u: string :: !MatchesAt(s, i, u)
  {
    if Search(s) == Some(url) {
      SearchIsLeftmost(s, url);
    }
    if i: nat :| LeftmostMatch(s, i, url) {
      LeftmostIsSearch(s, i, url);
    }
    SearchNoneCorrect(s);
  }

  // ---------------------------------------------------------------------
  // The match, seen as text

  /** A slice of `s` followed by a prefix of what comes after it is a
      prefix of `s` from the slice's start. */
  lemma PrefixJoin(s: string, x: nat, y: nat, rest: string)
    requires x <= y <= |s| && rest <= s[y..]
    ensures s[x..y] + rest <= s[x..]
  {
    assert s[x..y + |rest|] == s[x..y] + s[y..y + |rest|];
    assert s[x..][..y - x + |rest|] == s[x..y + |rest|];
  }

  /** `"<url>"` from the opening quote at `m`. */
  lemma QuotedText(s: string, m: nat, url: string)
    requires m + 1 + |url| < |s| && s[m] == Quote && s[m + 1 + |url|] == Quote
    requires forall t :: 0 <= t < |url| ==> s[m + 1 + t] == url[t]
    ensures [Quote] + (url + [Quote]) <= s[m..]
  {
    var q := m + 1 + |url|;
    assert s[m + 1..q] == url;
    assert s[q..q + 1] == [Quote];
    PrefixJoin(s, m + 1, q, [Quote]);
    assert s[m..m + 1] == [Quote];
    PrefixJoin(s, m, m + 1, url + [Quote]);
  }

  /** `=<w2>"<url>"` from the `=` at `k`. */
  lemma EqualsText(s: string, k: nat, m: nat, url: string)
    requires k < m && m + 1 + |url| < |s|
    requires s[k] == '=' && s[m] == Quote && s[m + 1 + |url|] == Quote
    requires forall t :: 0 <= t < |url| ==> s[m + 1 + t] == url[t]
    ensures "=" + (s[k + 1..m] + ([Quote] + (url + [Quote]))) <= s[k..]
  {
    QuotedText(s, m, url);
    PrefixJoin(s, k + 1, m, [Quote] + (url + [Quote]));
    assert s[k..k + 1] == "=";
    PrefixJoin(s, k, k + 1, s[k + 1..m] + ([Quote] + (url + [Quote])));
  }

  /** The text from `i` through the closing quote, with the runs between
      `link.href` and `=` and between `=` and the opening quote as found. */
  lemma AssignmentText(s: string, i: nat, k: nat, m: nat, url: string)
    requires i + |Target| <= k < m && m + 1 + |url| < |s|
    requires s[i..i + |Target|] == Target
    requires s[k] == '=' && s[m] == Quote && s[m + 1 + |url|] == Quote
    requires forall t :: 0 <= t < |url| ==> s[m + 1 + t] == url[t]
    ensures OccursAt(Assignment(s[i + |Target|..k], s[k + 1..m], url), s, i)
  {
    var j := i + |Target|;
    var w1, w2 := s[j..k], s[k + 1..m];
    EqualsText(s, k, m, url);
    PrefixJoin(s, j, k, "=" + (w2 + ([Quote] + (url + [Quote]))));
    PrefixJoin(s, i, j, w1 + ("=" + (w2 + ([Quote] + (url + [Quote])))));
    var a := Assignment(w1, w2, url);
    assert s[i..i + |a|] == s[i..][..|a|] == a;
  }

  /** A run of whitespace positions, cut out of `s`, is all whitespace. */
  lemma SpaceRun(s: string, j: nat, k: nat)
    requires j <= k <= |s|
    requires forall t :: j <= t < k ==> SpaceAt(s, t)
    ensures AllSpace(s[j..k])
  {
    forall t | 0 <= t < k - j
      ensures IsSpace(s[j..k][t])
    {
      assert SpaceAt(s, j + t);
    }
  }

  /** A match is an occurrence of `link.href<w1>=<w2>"<url>"` at its start
      index, for some whitespace runs `w1` and `w2`. */
  lemma MatchIsAssignment(s: string, i: nat, url: string)
    requires MatchesAt(s, i, url)
    ensures exists w1, w2 :: AllSpace(w1) && AllSpace(w2) && OccursAt(Assignment(w1, w2, url), s, i)
  {
    var k: nat, m: nat :| MatchShape(s, i, k, m, url);
    SliceIs(s, i, Target);
    SpaceRun(s, i + |Target|, k);
    SpaceRun(s, k + 1, m);
    AssignmentText(s, i, k, m, url);
  }

  /** The converse: an occurrence of `link.href<w1>=<w2>"<url>"` with
      whitespace runs and a capturable `url` is a match at its start index. */
  lemma AssignmentIsMatch(s: string, i: nat, w1: string, w2: string, url: string)
    requires AllSpace(w1) && AllSpace(w2) && IsUrl(url)
    requires OccursAt(Assignment(w1, w2, url), s, i)
    ensures MatchesAt(s, i, url)
  {
    var a := Assignment(w1, w2, url);
    var j := i + |Target|;
    var k := j + |w1|;
    var m := k + 1 + |w2|;
    var seen := s[i..i + |a|];
    assert seen == a;
    forall t | 0 <= t < |Target|
      ensures s[i + t] == Target[t]
    {
      assert s[i + t] == seen[t] && a[t] == Target[t];
    }
    forall t | j <= t < k
      ensures SpaceAt(s, t)
    {
      assert s[t] == seen[t - i] && a[t - i] == w1[t - j];
    }
    assert s[k] == seen[k - i] && a[k - i] == '=';
    forall t | k < t < m
      ensures SpaceAt(s, t)
    {
      assert s[t] == seen[t - i] && a[t - i] == w2[t - k - 1];
    }
    assert s[m] == seen[m - i] && a[m - i] == Quote;
    forall t | 0 <= t < |url|
      ensures s[m + 1 + t] == url[t]
    {
      assert s[m + 1 + t] == seen[m + 1 + t - i] && a[m + 1 + t - i] == url[t];
    }
    assert s[m + 1 + |url|] == seen[m + 1 + |url| - i] && a[m + 1 + |url| - i] == Quote;
    assert MatchShape(s, i, k, m, url);
  }

  // ---------------------------------------------------------------------
  // The loop over script bodies

  /** The link one script body contributes: the body must be present and
      non-empty, must contain the marker, and must match the pattern. */
  function ScriptUrl(body: Option<string>): (r: Option<string>)
    ensures r.Some? ==> body.Some? && Occurs(Marker, body.value) && r == Search(body.value)
    ensures body.Some? && Occurs(Marker, body.value) ==> r == Search(body.value)
  {
    if body.Some? && body.value != "" && Contains(body.value, Marker) then
      Search(body.value)
    else
      None
  }

  /** The `for script in script_tags` loop: the link of the first script, in
      document order, that contributes one. */
  function FindDownloadUrl(scripts: seq<Option<string>>): Option<string> {
    FirstSome(scripts, ScriptUrl)
  }

  /** A script body yields `url` under the pattern: present, marked, and
      with `url` captured by its leftmost match. */
  ghost predicate YieldsUrl(body: Option<string>, url: string) {
    && body.Some?
    && Occurs(Marker, body.value)
    && exists i: nat :: LeftmostMatch(body.value, i, url)
  }

  /** A script body yields nothing: absent, unmarked, or without any match. */
  ghost predicate YieldsNothing(body: Option<string>) {
    || body.None?
    || !Occurs(Marker, body.value)
    || forall i: nat, u: string :: !MatchesAt(body.value, i, u)
  }

  /** One script body against the pattern. */
  lemma ScriptUrlCorrect(body: Option<string>, url: string)
    ensures ScriptUrl(body) == Some(url) <==> YieldsUrl(body, url)
    ensures ScriptUrl(body).None? <==> YieldsNothing(body)
  {
    if body.Some? {
      SearchCorrect(body.value, url);
    }
  }

  /** Discovery against the pattern: the link found is the one yielded by
      the earliest script that yields one; every script before it yields
      nothing, however many of them carry the marker. */
  lemma FindDownloadUrlCorrect(scripts: seq<Option<string>>, url: string)
    ensures FindDownloadUrl(scripts) == Some(url) <==>
      exists k :: 0 <= k < |scripts| && YieldsUrl(scripts[k], url) &&
        forall j :: 0 <= j < k ==> YieldsNothing(scripts[j])
    ensures FindDownloadUrl(scripts).None? <==>
      forall k :: 0 <= k < |scripts| ==> YieldsNothing(scripts[k])
  {
    FirstSomeCorrect(scripts, ScriptUrl);
    forall k | 0 <= k < |scripts|
      ensures ScriptUrl(scripts[k]) == Some(url) <==> YieldsUrl(scripts[k], url)
      ensures ScriptUrl(scripts[k]).None? <==> YieldsNothing(scripts[k])
    {
      ScriptUrlCorrect(scripts[k], url);
    }
  }

  /** A script that is absent, unmarked, or marked but without a match is
      passed over: dropping it does not change the link found. */
  lemma NoUrlScriptIsSkipped(scripts: seq<Option<string>>, k: nat)
    requires k < |scripts| && YieldsNothing(scripts[k])
    ensures FindDownloadUrl(scripts[..k] + scripts[k + 1..]) == FindDownloadUrl(scripts)
  {
    ScriptUrlCorrect(scripts[k], "");
    FirstSomeSkips(scripts, ScriptUrl, k);
  }

  /** The link found is a capture of `([^"]+)`: never empty (so never falsy)
      and free of double quotes. */
  lemma FoundUrlIsUrl(scripts: seq<Option<string>>)
    requires FindDownloadUrl(scripts).Some?
    ensures IsUrl(FindDownloadUrl(scripts).value)
  {
    var url := FindDownloadUrl(scripts).value;
    FindDownloadUrlCorrect(scripts, url);
    var k :| 0 <= k < |scripts| && YieldsUrl(scripts[k], url) &&
      forall j :: 0 <= j < k ==> YieldsNothing(scripts[j]);
    var i: nat :| LeftmostMatch(scripts[k].value, i, url);
    var k', m' :| MatchShape(scripts[k].value, i, k', m', url);
  }
}

=== FILE: options.dfy ===
/** Python's `None`-or-value, as used for `script.string`, `match.group(1)`
    and the result of `next(..., None)`. */
module Options {

  datatype Option<+T> = None | Some(value: T)
}

=== FILE: retrieval.dfy ===
/** One run of `retrieve_data`: fetch the traffic page, find the workbook
    link in its scripts, pick the data sheet, export it as CSV, and report
    the outcome as a one-entry dictionary. Everything the run asks of the
    outside world (the HTTP response, the workbook, the export) is an input;
    what the run does in return is recorded as a trace of effects. */
module Retrieval {
  import opened Options
  import opened Text
  import opened Decimal
  import opened LinkDiscovery
  import opened SheetSelection

  // ---------------------------------------------------------------------
  // The world as the run sees it

  /** An exception escaping a call: `requests.exceptions.RequestException`
      (and its subclasses) or any other `Exception`, with its `str()`. */
  datatype Fault = RequestFault(detail: string) | OtherFault(detail: string)

  /** A call that either returns a value or raises. */
  datatype Attempt<T> = Returned(value: T) | Raised(fault: Fault)

  /** The HTTP response: its status code and the `.string` of each
      `<script>` element, in document order (`None` where BeautifulSoup has
      no single string for the element). */
  datatype Page = Page(status: int, scripts: seq<Option<string>>)

  /** What the outside world answers: the page request, the sheet names of
      the workbook at a URL, and whether exporting a sheet of that workbook
      raises; `outputFile` is the CSV path next to the script. */
  datatype Environment = Environment(
    page: Attempt<Page>,
    open: string -> Attempt<seq<string>>,
    save: (string, string) -> Option<Fault>,
    outputFile: string)

  /** What the run does, in order: log lines and the three outside calls. */
  datatype Effect =
    | LogInfo(text: string)
    | LogError(text: string)
    | FetchPage(url: string)
    | OpenWorkbook(url: string)
    | SaveSheet(url: string, sheet: string, path: string)

  /** The returned dictionary's single entry: `{"message": ...}` or
      `{"error": ...}`. */
  datatype Outcome = Message(text: string) | Error(text: string)

  datatype Run = Run(outcome: Outcome, effects: seq<Effect>)

  // ---------------------------------------------------------------------
  // Constants of the run

  const PageUrl := "https://www.eurocontrol.int/Economics/DailyTrafficVariation-States.html"
  const StartNote := "Starting data retrieval process."
  const StatusPrefix := "Failed to fetch the page. Status code: "
  const NoUrlText := "No download URL found in the JavaScript."
  const NoSheetText := "No sheet containing 'data' found."
  const SavedPrefix := "Data saved to "
  const NetworkPrefix := "Network error occurred: "
  const UnexpectedPrefix := "An unexpected error occurred: "
  const OkStatus := 200

  // ---------------------------------------------------------------------
  // The run

  /** Python's `not x` for an optional string: `None` or `""`. */
  predicate IsFalsy(x: Option<string>) {
    x.None? || x.value == ""
  }

  /** The text of the error for an escaped exception: the handlers are tried
      in order, the request handler first. */
  function FaultText(f: Fault): (text: string)
    ensures Occurs(f.detail, text)
    ensures NetworkPrefix <= text <==> f.RequestFault?
    ensures UnexpectedPrefix <= text <==> f.OtherFault?
  {
    OccursAsSuffix(NetworkPrefix, f.detail);
    OccursAsSuffix(UnexpectedPrefix, f.detail);
    match f
    case RequestFault(d) =>
      assert (NetworkPrefix + d)[0] != UnexpectedPrefix[0];
      NetworkPrefix + d
    case OtherFault(d) =>
      assert (UnexpectedPrefix + d)[0] != NetworkPrefix[0];
      UnexpectedPrefix + d
  }

  /** The log line an outcome is recorded with. */
  function Logged(o: Outcome): Effect {
    match o
    case Message(t) => LogInfo(t)
    case Error(t) => LogError(t)
  }

  /** Ends the run with an error after `trace`, logging it first. */
  function Stop(trace: seq<Effect>, text: string): Run {
    Run(Error(text), trace + [LogError(text)])
  }

  /** A run that starts with `trace` and ends by logging its outcome. */
  ghost predicate WellLogged(r: Run, trace: seq<Effect>) {
    && |r.effects| > |trace|
    && r.effects[..|trace|] == trace
    && r.effects[|r.effects| - 1] == Logged(r.outcome)
  }

  /** `retrieve_data()`: the request for the page, then the rest. */
  function Retrieve(env: Environment): (r: Run)
    ensures |r.effects| >= 3
    ensures r.effects[0] == LogInfo(StartNote) && r.effects[1] == FetchPage(PageUrl)
    ensures r.effects[|r.effects| - 1] == Logged(r.outcome)
  {
    var fetched := [LogInfo(StartNote), FetchPage(PageUrl)];
    var r := match env.page
      case Raised(f) => Stop(fetched, FaultText(f))
      case Returned(page) => AfterFetch(env, page, fetched);
    assert r.effects[..2] == fetched;
    assert r.effects[0] == r.effects[..2][0] && r.effects[1] == r.effects[..2][1];
    r
  }

  /** The status check, then the search for the link. */
  function AfterFetch(env: Environment, page: Page, trace: seq<Effect>): (r: Run)
    ensures WellLogged(r, trace)
  {
    if page.status != OkStatus then
      Stop(trace, StatusPrefix + IntToDecimal(page.status))
    else
      var link := FindDownloadUrl(page.scripts);
      if IsFalsy(link) then Stop(trace, NoUrlText)
      else AfterLink(env, link.value, trace + [OpenWorkbook(link.value)])
  }

  /** Opening the workbook at `url`, then choosing the sheet. */
  function AfterLink(env: Environment, url: string, trace: seq<Effect>): (r: Run)
    ensures WellLogged(r, trace)
  {
    match env.open(url)
    case Raised(f) => Stop(trace, FaultText(f))
    case Returned(names) =>
      var sheet := SelectSheet(names);
      if IsFalsy(sheet) then Stop(trace, NoSheetText)
      else AfterSheet(env, url, sheet.value, trace + [SaveSheet(url, sheet.value, env.outputFile)])
  }

  /** Exporting the chosen sheet and reporting where it went. */
  function AfterSheet(env: Environment, url: string, sheet: string, trace: seq<Effect>): (r: Run)
    ensures WellLogged(r, trace)
  {
    match env.save(url, sheet)
    case Some(f) => Stop(trace, FaultText(f))
    case None =>
      var text := SavedPrefix + env.outputFile;
      Run(Message(text), trace + [LogInfo(text)])
  }

  // ---------------------------------------------------------------------
  // The returned dictionary

  const MessageKey := "message"
  const ErrorKey := "error"

  /** The dictionary `retrieve_data` returns. */
  function ToDict(o: Outcome): (d: map<string, string>)
    ensures |d| == 1
    ensures MessageKey in d <==> o.Message?
    ensures ErrorKey in d <==> o.Error?
    ensures forall k :: k in d ==> d[k] == o.text
  {
    match o
    case Message(t) => map[MessageKey := t]
    case Error(t) => map[ErrorKey := t]
  }

  /** Reads a returned dictionary back as an outcome. */
  function FromDict(d: map<string, string>): (o: Option<Outcome>)
    ensures o.Some? ==> |d| == 1
  {
    if d.Keys == {MessageKey} then Some(Message(d[MessageKey]))
    else if d.Keys == {ErrorKey} then Some(Error(d[ErrorKey]))
    else None
  }

  /** The dictionary determines the outcome. */
  lemma DictRoundTrip(o: Outcome)
    ensures FromDict(ToDict(o)) == Some(o)
  {
    var d := ToDict(o);
    if o.Message? {
      assert d.Keys == {MessageKey};
    } else {
      assert d.Keys == {ErrorKey};
    }
  }

  // ---------------------------------------------------------------------
  // The stages, one at a time

  /** A response other than 200 ends the run with the status code in the
      message, before any script is read or any workbook opened. */
  lemma BadStatusStops(env: Environment)
    requires env.page.Returned? && env.page.value.status != OkStatus
    ensures Retrieve(env).outcome.Error?
    ensures Occurs(IntToDecimal(env.page.value.status), Retrieve(env).outcome.text)
    ensures Retrieve(env).effects ==
      [LogInfo(StartNote), FetchPage(PageUrl), LogError(Retrieve(env).outcome.text)]
  {
    OccursAsSuffix(StatusPrefix, IntToDecimal(env.page.value.status));
  }

  /** The status code can be read back from the message it produced. */
  lemma StatusCodeReadBack(env: Environment)
    requires env.page.Returned? && env.page.value.status != OkStatus
    ensures var text := Retrieve(env).outcome.text;
      |StatusPrefix| < |text| &&
      text[..|StatusPrefix|] == StatusPrefix &&
      DecimalToInt(text[|StatusPrefix|..]) == env.page.value.status
  {
    var code := IntToDecimal(env.page.value.status);
    var text := StatusPrefix + code;
    assert text[..|StatusPrefix|] == StatusPrefix;
    assert text[|StatusPrefix|..] == code;
    IntDecimalRoundTrip(env.page.value.status);
  }

  /** A page that loads but where no script yields a link ends the run with
      the no-link error, without opening any workbook. */
  lemma NoLinkStops(env: Environment)
    requires env.page.Returned? && env.page.value.status == OkStatus
    requires forall k :: 0 <= k < |env.page.value.scripts| ==>
      YieldsNothing(env.page.value.scripts[k])
    ensures Retrieve(env).outcome == Error(NoUrlText)
    ensures forall e :: e in Retrieve(env).effects ==> !e.OpenWorkbook? && !e.SaveSheet?
  {
    FindDownloadUrlCorrect(env.page.value.scripts, "");
  }

  /** The run opens a workbook exactly when the page loaded with status 200
      and discovery found a link, and it opens the workbook at that link. */
  lemma OpensFoundLink(env: Environment, url: string)
    ensures OpenWorkbook(url) in Retrieve(env).effects <==> LinkFound(env, url)
  {
    if env.page.Returned? && env.page.value.status == OkStatus &&
       FindDownloadUrl(env.page.value.scripts).Some? {
      FoundUrlIsUrl(env.page.value.scripts);
    }
  }

  /** A workbook without a data sheet ends the run with the no-sheet error,
      and nothing is saved. */
  lemma NoSheetStops(env: Environment, url: string, names: seq<string>)
    requires env.page.Returned? && env.page.value.status == OkStatus
    requires FindDownloadUrl(env.page.value.scripts) == Some(url)
    requires env.open(url) == Returned(names)
    requires forall k :: 0 <= k < |names| ==> !IsDataSheet(names[k])
    ensures Retrieve(env).outcome == Error(NoSheetText)
    ensures forall e :: e in Retrieve(env).effects ==> !e.SaveSheet?
  {
    FoundUrlIsUrl(env.page.value.scripts);
    SelectSheetCorrect(names, "");
  }

  /** Only the chosen data sheet of the workbook at the discovered link is
      ever saved, and only to the output file. */
  lemma SavesOnlyDataSheet(env: Environment, url: string, sheet: string, path: string)
    requires SaveSheet(url, sheet, path) in Retrieve(env).effects
    ensures path == env.outputFile
    ensures LinkFound(env, url)
    ensures env.open(url).Returned?
    ensures SelectSheet(env.open(url).value) == Some(sheet)
    ensures sheet in env.open(url).value && IsDataSheet(sheet)
  {
    SelectedSheetQualifies(env.open(url).value);
  }

  /** An exception from any of the three calls ends the run with the text of
      the handler that catches it, carrying the exception's own text. */
  lemma FaultIsReported(env: Environment, url: string, names: seq<string>, sheet: string)
    ensures env.page.Raised? ==>
      Retrieve(env).outcome == Error(FaultText(env.page.fault))
    ensures LinkFound(env, url) && env.open(url).Raised? ==>
      Retrieve(env).outcome == Error(FaultText(env.open(url).fault))
    ensures (LinkFound(env, url) && env.open(url) == Returned(names) &&
             SelectSheet(names) == Some(sheet) && env.save(url, sheet).Some?) ==>
      Retrieve(env).outcome == Error(FaultText(env.save(url, sheet).value))
  {
    if LinkFound(env, url) {
      FoundUrlIsUrl(env.page.value.scripts);
      if env.open(url) == Returned(names) && SelectSheet(names).Some? {
        SelectedSheetQualifies(names);
      }
    }
  }

  // ---------------------------------------------------------------------
  // Success

  /** The page loaded with status 200 and discovery found `url` in it. */
  predicate LinkFound(env: Environment, url: string) {
    && env.page.Returned? && env.page.value.status == OkStatus
    && FindDownloadUrl(env.page.value.scripts) == Some(url)
  }

  /** Every stage went through: the page loaded with status 200, discovery
      found `url`, the workbook there lists `names`, `sheet` is chosen from
      them, and the export did not raise. */
  predicate Succeeds(env: Environment, url: string, names: seq<string>, sheet: string) {
    && LinkFound(env, url)
    && env.open(url) == Returned(names)
    && SelectSheet(names) == Some(sheet)
    && env.save(url, sheet).None?
  }

  /** The run reports success exactly when every stage went through, and
      then it reports the output file after saving the chosen sheet there. */
  lemma SuccessCorrect(env: Environment)
    ensures Retrieve(env).outcome.Message? <==>
      exists url, names, sheet :: Succeeds(env, url, names, sheet)
    ensures forall url, names, sheet :: Succeeds(env, url, names, sheet) ==>
      Retrieve(env).outcome == Message(SavedPrefix + env.outputFile) &&
      SaveSheet(url, sheet, env.outputFile) in Retrieve(env).effects
  {
    var r := Retrieve(env);
    if env.page.Returned? && env.page.value.status == OkStatus &&
       FindDownloadUrl(env.page.value.scripts).Some? {
      var url := FindDownloadUrl(env.page.value.scripts).value;
      FoundUrlIsUrl(env.page.value.scripts);
      if env.open(url).Returned? && SelectSheet(env.open(url).value).Some? {
        var names := env.open(url).value;
        SelectedSheetQualifies(names);
        if r.outcome.Message? {
          assert Succeeds(env, url, names, SelectSheet(names).value);
        }
      }
    }
  }
}

=== FILE: sheet_selection.dfy ===
/** Choosing the worksheet to export: the first sheet whose name, lower-cased,
    contains "data". */
module SheetSelection {
  import opened Options
  import opened Text
  import opened FirstMatch

  /** The word the sheet name is searched for. */
  const DataTag := "data"

  /** `'data' in sheet.lower()`. */
  predicate IsDataSheet(name: string) {
    Contains(Lower(name), DataTag)
  }

  /** `next((sheet for sheet in names if ...), None)`: the first data sheet,
      in workbook order. */
  function SelectSheet(names: seq<string>): Option<string> {
    First(names, IsDataSheet)
  }

  // ---------------------------------------------------------------------
  // The test, read without lower-casing

  /** `c` is the lower-case letter `l` or its upper-case form. */
  predicate SameLetter(c: char, l: char) {
    c == l || c as int == l as int - 32
  }

  /** The four characters of `name` from index `i` spell "data" in any mix of
      upper and lower case. */
  ghost predicate SpellsDataAt(name: string, i: int) {
    0 <= i && i + |DataTag| <= |name| &&
    forall t :: 0 <= t < |DataTag| ==> SameLetter(name[i + t], DataTag[t])
  }

  /** Lower-casing a character gives the letter `l` of "data" exactly when
      the character is `l` in either case. */
  lemma LowerCharIsTagLetter(c: char, t: nat)
    requires t < |DataTag|
    ensures LowerChar(c) == DataTag[t] <==> SameLetter(c, DataTag[t])
  {
  }

  /** Lower-casing maps "data" at index `i` exactly to a case-insensitive
      spelling there. */
  lemma LoweredAt(name: string, i: int)
    ensures OccursAt(DataTag, Lower(name), i) <==> SpellsDataAt(name, i)
  {
    var low := Lower(name);
    if OccursAt(DataTag, low, i) {
      forall t | 0 <= t < |DataTag|
        ensures SameLetter(name[i + t], DataTag[t])
      {
        assert low[i + t] == low[i..i + |DataTag|][t];
        LowerCharIsTagLetter(name[i + t], t);
      }
    }
    if SpellsDataAt(name, i) {
      forall t | 0 <= t < |DataTag|
        ensures low[i..i + |DataTag|][t] == DataTag[t]
      {
        LowerCharIsTagLetter(name[i + t], t);
      }
      assert low[i..i + |DataTag|] == DataTag;
    }
  }

  /** A sheet qualifies exactly when its name spells "data" somewhere,
      ignoring case. */
  lemma IsDataSheetCorrect(name: string)
    ensures IsDataSheet(name) <==> exists i :: SpellsDataAt(name, i)
  {
    if IsDataSheet(name) {
      var i :| OccursAt(DataTag, Lower(name), i);
      LoweredAt(name, i);
    }
    if i :| SpellsDataAt(name, i) {
      LoweredAt(name, i);
    }
  }

  /** A qualifying name has at least the four letters of "data", so the
      chosen sheet is never the empty (falsy) string. */
  lemma DataSheetIsLong(name: string)
    requires IsDataSheet(name)
    ensures |name| >= |DataTag|
  {
    IsDataSheetCorrect(name);
  }

  // ---------------------------------------------------------------------
  // Which sheet is chosen

  /** `names[k]` qualifies and no earlier name does. */
  ghost predicate FirstDataSheetAt(names: seq<string>, k: int) {
    && 0 <= k < |names|
    && IsDataSheet(names[k])
    && forall j :: 0 <= j < k ==> !IsDataSheet(names[j])
  }

  /** The sheet chosen is the first qualifying name in workbook order, and
      there is none exactly when no name qualifies. */
  lemma SelectSheetCorrect(names: seq<string>, sheet: string)
    ensures SelectSheet(names) == Some(sheet) <==>
      exists k :: FirstDataSheetAt(names, k) && names[k] == sheet
    ensures SelectSheet(names).None? <==> forall k :: 0 <= k < |names| ==> !IsDataSheet(names[k])
  {
    FirstCorrect(names, IsDataSheet);
    var r := SelectSheet(names);
    if k :| FirstDataSheetAt(names, k) && names[k] == sheet {
      var k' :| FirstDataSheetAt(names, k') && names[k'] == r.value;
      assert !(k < k') && !(k' < k);
    }
  }

  /** The chosen sheet is one of the workbook's sheets, and it qualifies. */
  lemma SelectedSheetQualifies(names: seq<string>)
    requires SelectSheet(names).Some?
    ensures SelectSheet(names).value in names
    ensures IsDataSheet(SelectSheet(names).value)
    ensures |SelectSheet(names).value| >= |DataTag|
  {
    SelectSheetCorrect(names, SelectSheet(names).value);
    DataSheetIsLong(SelectSheet(names).value);
  }
}

=== FILE: text.dfy ===
/** Character classes and substring tests on Python `str` values, modelled as
    `seq<char>` over Unicode scalar values. */
module Text {

  /** The characters Python's `\s` matches in a `str` pattern: exactly those
      for which `str.isspace()` holds. */
  predicate IsSpace(c: char) {
    var n := c as int;
    || 0x09 <= n <= 0x0D
    || 0x1C <= n <= 0x20
    || n == 0x85 || n == 0xA0 || n == 0x1680
    || 0x2000 <= n <= 0x200A
    || n == 0x2028 || n == 0x2029 || n == 0x202F || n == 0x205F || n == 0x3000
  }

  /** The character of `s` at index `t` is whitespace. */
  predicate SpaceAt(s: string, t: int)
    requires 0 <= t < |s|
  {
    IsSpace(s[t])
  }

  /** `pat` occurs in `s` at index `i`. */
  ghost predicate OccursAt(pat: string, s: string, i: int) {
    0 <= i && i + |pat| <= |s| && s[i..i + |pat|] == pat
  }

  /** Python's `pat in s`, stated declaratively. */
  ghost predicate Occurs(pat: string, s: string) {
    exists i :: OccursAt(pat, s, i)
  }

  /** Whether `pat` occurs in `s` at some index `i` or later. */
  function ContainsFrom(s: string, pat: string, i: nat): (b: bool)
    requires i <= |s|
    ensures b <==> exists j :: i <= j && OccursAt(pat, s, j)
    decreases |s| - i
  {
    if pat <= s[i..] then
      assert OccursAt(pat, s, i);
      true
    else if i == |s| then
      false
    else
      ContainsFrom(s, pat, i + 1)
  }

  /** Python's `pat in s`, computed by trying each start index in turn. */
  function Contains(s: string, pat: string): (b: bool)
    ensures b <==> Occurs(pat, s)
  {
    ContainsFrom(s, pat, 0)
  }

  /** A string ends with itself as a suffix of any concatenation. */
  lemma OccursAsSuffix(prefix: string, pat: string)
    ensures Occurs(pat, prefix + pat)
  {
    var s := prefix + pat;
    assert s[|prefix|..|prefix| + |pat|] == pat;
    assert OccursAt(pat, s, |prefix|);
  }

  /** The characters of `pat` from offset `t` on appear in `s` from index
      `i + t` on; compared one character at a time, as a regex engine
      matches a literal. */
  predicate LiteralFrom(s: string, i: nat, pat: string, t: nat)
    requires t <= |pat|
    decreases |pat| - t
  {
    t == |pat| || (i + t < |s| && s[i + t] == pat[t] && LiteralFrom(s, i, pat, t + 1))
  }

  /** `pat` appears in `s` at index `i`. */
  predicate LiteralAt(s: string, i: nat, pat: string) {
    LiteralFrom(s, i, pat, 0)
  }

  /** A run of `s` that agrees with `w` character by character is `w`. */
  lemma SliceIs(s: string, j: nat, w: string)
    requires j + |w| <= |s|
    requires forall t :: 0 <= t < |w| ==> s[j + t] == w[t]
    ensures s[j..j + |w|] == w
  {
    forall t | 0 <= t < |w|
      ensures s[j..j + |w|][t] == w[t]
    {
      assert s[j..j + |w|][t] == s[j + t];
    }
  }

  /** The character of `s` at index `i + u` is the `u`-th character of `pat`. */
  predicate Agrees(s: string, i: nat, pat: string, u: nat)
    requires u < |pat|
  {
    i + u < |s| && s[i + u] == pat[u]
  }

  /** The literal comparison from offset `t` checks exactly the characters
      from `t` on. */
  lemma {:induction false} LiteralFromCorrect(s: string, i: nat, pat: string, t: nat)
    requires t <= |pat|
    ensures LiteralFrom(s, i, pat, t) <==>
      forall u: nat :: t <= u < |pat| ==> Agrees(s, i, pat, u)
    decreases |pat| - t
  {
    if t < |pat| {
      LiteralFromCorrect(s, i, pat, t + 1);
      assert LiteralFrom(s, i, pat, t) <==> Agrees(s, i, pat, t) && LiteralFrom(s, i, pat, t + 1);
    }
  }

  /** At a start index inside `s` (or just past its end), the literal
      comparison agrees with the declarative occurrence. */
  lemma LiteralAtCorrect(s: string, i: nat, pat: string)
    requires i <= |s|
    ensures LiteralAt(s, i, pat) <==> OccursAt(pat, s, i)
  {
    LiteralFromCorrect(s, i, pat, 0);
    if LiteralAt(s, i, pat) && |pat| > 0 {
      assert Agrees(s, i, pat, |pat| - 1);
      forall u | 0 <= u < |pat|
        ensures s[i..i + |pat|][u] == pat[u]
      {
        assert Agrees(s, i, pat, u);
      }
      assert s[i..i + |pat|] == pat;
    }
    if OccursAt(pat, s, i) {
      forall u: nat | u < |pat|
        ensures Agrees(s, i, pat, u)
      {
        assert s[i + u] == s[i..i + |pat|][u];
      }
    }
  }

  /** `str.lower()` on one character, restricted to the ASCII letters. */
  function LowerChar(c: char): (r: char)
    ensures !('A' <= r <= 'Z')
    ensures !('A' <= c <= 'Z') ==> r == c
    ensures 'A' <= c <= 'Z' ==> 'a' <= r <= 'z' && r as int - c as int == 32
  {
    if 'A' <= c <= 'Z' then (c as int + 32) as char else c
  }

  /** `str.lower()`, restricted to the ASCII letters. */
  function Lower(s: string): (r: string)
    ensures |r| == |s|
    ensures forall i :: 0 <= i < |s| ==> r[i] == LowerChar(s[i])
  {
    if |s| == 0 then [] else [LowerChar(s[0])] + Lower(s[1..])
  }
}
